=== FILE: README.md ===
# WasmFS name handling, modelled in Dafny

This project models how the WasmFS file system of Emscripten names the
children of a directory. It covers three layers.

- **Path components** (`PathKeys`, path_key.dfy). A `PathString` holds a name
  as the caller spelled it (its *public name*). In case-insensitive builds it
  also has an ASCII-lowered *internal name* used for every lookup. The same
  lowering is the ignore-case backend's `normalize`.
- **The directory cache engine** (`DirCache`, dcache.dfy). This is the
  `Directory::Handle` layer of file.cpp. Each directory keeps a *dcache*, a
  map from internal name to `{kind: Normal | Mount, file, originalName}`,
  layered over the directory's backend. The model covers child lookup,
  mounting, the three inserts, rename (`insertMove`), removal, reverse lookup
  (`getName`), and the entry count and listing. All files are objects of one
  class `File`, with a mutable `parent` back pointer, an `mtime`, the `dcache`
  and `store`, the backend's own name-to-file map.
- **The ignore-case backend** (`IgnoreCase`, ignore_case.dfy). An
  `IgnoreCaseDirectory` lowers every name before forwarding it to a base
  directory. It keeps the names as first spelled in `origNames`, a vector
  aligned index by index with its own `entries`, and uses them to report
  names in their original case.

Errors follow the source's return values: `null` results, `false`, `-EPERM`,
and the base directory's error codes. A backend's verdict that the model
cannot see is an integer parameter (`refusal`; 0 means the backend accepts).
The clock is a parameter `now`. The `WASMFS_CASE_INSENSITIVE` build flag is
the `caseInsensitive` field of each `PathString` and the `caseInsensitive`
parameter of `getName` and `getEntries`. A build fixes one value for all of
them; every contract holds for each value on its own, so the model does not
need to tie them together.

## Model

| member | source | states |
|---|---|---|
| PathKeys.ToLower | system/lib/wasmfs/path_string.h:27 | ASCII `tolower`: upper-case letters move up by 32 to the lower-case letter and every other character is unchanged; the result is never upper-case |
| PathKeys.Lowered | system/lib/wasmfs/backends/ignore_case_backend.cpp:17-23 | `normalize` keeps the length, and every character of the result is `tolower` of the character at the same index |
| PathKeys.LoweredIdempotent | system/lib/wasmfs/backends/ignore_case_backend.cpp:17-23 | normalizing twice gives the same name as normalizing once |
| PathKeys.LoweredFixesLowered | system/lib/wasmfs/path_string.h:25-28 | lowering leaves a name unchanged exactly when it has no upper-case ASCII letter (both directions) |
| PathKeys.LoweredEqualIff | system/lib/wasmfs/path_string.h:25-28 | two names lower to the same name if and only if they differ only in the case of ASCII letters |
| PathKeys.EmptyPath | system/lib/wasmfs/path_string.h:22 | a default-constructed path has empty public and internal names |
| PathKeys.MakePath | system/lib/wasmfs/path_string.h:23-41 | the public name is the constructor's argument; in case-insensitive builds the internal name has the same length and is the per-character `tolower`; otherwise the internal name equals the public name |
| PathKeys.InternalNameIgnoresCase | system/lib/wasmfs/path_string.h:25-37 | in case-insensitive builds two paths have the same internal name if and only if their spellings differ only in letter case |
| PathKeys.InternalNameStable | system/lib/wasmfs/path_string.h:25-28 | building a path from an internal name gives back the same internal name |
| DirCache.File.CacheChild | system/lib/wasmfs/file.cpp:43-64 | a Mount entry, or any entry when the backend does not keep file identity, is added under the internal name with the public name as original spelling; otherwise the cache is unchanged; the child's parent becomes this directory; requires the key to be new and the child to be unparented or already ours; a directory that is adopted (every cached file has it as parent, each file is cached under one key, a stored file cached here is cached under its stored name, and the backend holds each file under one name) stays adopted when the child was not cached here and is stored, if at all, under its own name |
| DirCache.File.GetChild | system/lib/wasmfs/file.cpp:66-90 | an unlinked directory returns null for every name, "." and ".." included; "." is the directory and ".." its parent; otherwise the result is the cached file or else the backend's child; a backend child is cached (the adoption assertion is required only where it is reached: linked directory, name other than "." and "..", cache miss) as Normal (unless the backend keeps identity) and its parent set to this directory; a miss changes nothing; other files' parents are unchanged, and on every path that caches nothing (unlinked, ".", "..", a cache hit, a miss) no parent changes at all; an adopted directory stays adopted |
| DirCache.File.MountChild | system/lib/wasmfs/file.cpp:92-101 | false and no change on an unlinked directory; otherwise a Mount entry is added to the cache without touching the backend, and the child's parent becomes this directory; adoption is kept under the same condition as for `CacheChild` |
| DirCache.MountAddsOneEntry | system/lib/wasmfs/file.cpp:238-247 | adding a Mount entry under a new key raises the mount count that `getNumEntries` adds by exactly one |
| DirCache.File.InsertNew | system/lib/wasmfs/file.cpp:103-147 | null, with cache, backend and mtime unchanged, exactly when the directory is unlinked or the backend already has the name; otherwise a fresh child of the requested kind, stored in the backend, cached unless the backend keeps identity, retrievable by its internal name, with this directory as parent and mtime set to `now`; an adopted directory stays adopted |
| DirCache.File.InsertDataFile | system/lib/wasmfs/file.cpp:103-116 | the insert contract for a data file |
| DirCache.File.InsertDirectory | system/lib/wasmfs/file.cpp:118-131 | the insert contract for a directory; the new directory starts with an empty cache and backend |
| DirCache.File.InsertSymlink | system/lib/wasmfs/file.cpp:133-147 | the insert contract for a symlink, whose target is stored as the target's internal name |
| DirCache.KeyHolding | system/lib/wasmfs/file.cpp:162-164 | the search by file identity finds a key holding the file, or reports that no key holds it |
| DirCache.File.Recache | system/lib/wasmfs/file.cpp:174-187 | the old parent's entry leaves its cache and is stored unchanged, old spelling included, under the new internal name; a different file cached under that name gets a null parent; the moved file's parent becomes the destination; no other cached file's parent changes; every file left in either cache still has that directory as parent |
| DirCache.File.RecacheFixed | system/lib/wasmfs/file.cpp:174-187 | the entry leaves the old parent's cache and is stored under the new internal name with the new public name, so it is shown under the new spelling; as in `Recache`, a different file cached under that name gets a null parent, the moved file's parent becomes the destination, no other cached file's parent changes, and every file left in either cache still has that directory as parent |
| DirCache.File.MoveCached | system/lib/wasmfs/file.cpp:172-195 | the entry found by file identity, if any, is re-keyed unchanged as in `Recache`, otherwise both caches and the parent pointer are unchanged; both mtimes are `now`; parent pointers of other cached files and the parent invariant of both directories are kept |
| DirCache.File.InsertMove | system/lib/wasmfs/file.cpp:152-199 | -EPERM on an unlinked destination, with the cache, backend and mtime of both directories and the parent pointer unchanged; a backend error is returned with the same things unchanged; on either of these returns no cached file's parent changes; on success the old parent's backend loses every name of the file and the destination's backend maps the new name to it (within one directory, both at once), the entry found by file identity is stored unchanged (old spelling included) under the new key, an overwritten cached file is detached, the file's parent is the destination and both mtimes are `now`; with no cached entry the backend must keep identity and both caches and the parent pointer are unchanged; no other file cached here changes parent; the destination stays adopted when the file was not stored in it under another name, and the old parent stays adopted |
| DirCache.StaleNameAfterMove | system/lib/wasmfs/file.cpp:174-187 | as written, after `Recache` moves a file cached as "Foo" to "Bar" in a case-insensitive build, the name shown under the new key is "Foo" |
| DirCache.RekeyedEntry | system/lib/wasmfs/file.cpp:181-185 | the corrected re-keyed entry keeps file and kind and displays under the new public name |
| DirCache.File.RemoveChild | system/lib/wasmfs/file.cpp:201-218 | a Mount entry is erased and true returned without touching the backend or mtime; otherwise the result is whether the backend had the name; on failure nothing changes, no cached file's parent included; on success the name is gone from cache and backend, a cached file gets a null parent, and mtime is `now` |
| DirCache.File.BackendName | system/lib/wasmfs/file.cpp:221-223 | a backend that keeps identity answers with a name holding the file whenever one does, and with "" when none does |
| DirCache.File.GetName | system/lib/wasmfs/file.cpp:220-236 | with identity the backend's answer, a name holding the file whenever the backend has one and "" otherwise; otherwise a cache key holding the file, shown by its original spelling in case-insensitive builds when one was recorded; "" when no entry holds the file |
| DirCache.File.GetNumEntries | system/lib/wasmfs/file.cpp:238-247 | the backend's entry count plus the number of Mount entries in the cache |
| DirCache.Enumerate | system/lib/wasmfs/file.cpp:250-257 | a listing names every key of the map exactly once, with its file's kind and identity |
| DirCache.File.RestoreNames | system/lib/wasmfs/file.cpp:259-270 | each listed name is replaced by the cached original spelling when the cache holds the same file of the same kind under that name |
| DirCache.File.GetEntries | system/lib/wasmfs/file.cpp:249-273 | the backend's listing followed by one entry per Mount entry, each key exactly once and each entry carrying its file's kind, with original spellings restored in case-insensitive builds; without case-insensitivity the result is itself that full listing |
| IgnoreCase.BaseDirectory.InsertDataFile | system/lib/wasmfs/file.cpp:103-116 | the base, reached through its handle, returns null and changes nothing exactly when it is unlinked or already has the name; otherwise it stores a fresh data file under the name, with the base as its parent (the handle's `cacheChild`) |
| IgnoreCase.BaseDirectory.InsertSymlink | system/lib/wasmfs/file.cpp:133-147 | as for data files, the new symlink's parent being the base; its target is the internal name of the target path |
| IgnoreCase.BaseDirectory.InsertDirectory | system/lib/wasmfs/file.cpp:118-131 | as for data files; the new directory is fresh and empty, and its parent is the base (file.cpp:128, 60-63) |
| IgnoreCase.IgnoreCaseDirectory.InsertChild | system/lib/wasmfs/backends/ignore_case_backend.cpp:35-40 | the lowered name is appended to the entries and the spelling to `origNames`, keeping the two aligned; when the base holds the lowered name and no entry has it yet, the directory stays valid (entry names distinct and all held by the base) |
| IgnoreCase.IgnoreCaseDirectory.FindEntry | system/lib/wasmfs/backends/ignore_case_backend.cpp:111 | the index of the first entry with the given name, or -1 |
| IgnoreCase.IgnoreCaseDirectory.GetChild | system/lib/wasmfs/backends/ignore_case_backend.cpp:46-48 | the child of the first entry whose name is the lowered name, or null when there is none |
| IgnoreCase.ChildForIgnoresCase | system/lib/wasmfs/backends/ignore_case_backend.cpp:46-48 | names that differ only in letter case find the same child |
| IgnoreCase.ChildForAppended | system/lib/wasmfs/backends/ignore_case_backend.cpp:35-48 | after an entry is appended under a lowered name no entry had, every spelling of that name finds the appended child |
| IgnoreCase.FileInNewSubdirectory | test/other/test_fs_icase.cpp:91-99 | making "Subdir" in a linked ignore-case directory and creating "Test.txt" in it succeeds, and "TEST.TXT" finds that file |
| IgnoreCase.IgnoreCaseDirectory.InsertDataFile | system/lib/wasmfs/backends/ignore_case_backend.cpp:50-61 | null, with nothing recorded, exactly when the base is unlinked or already has the lowered name; otherwise the base holds the new file under the lowered name, the spelling is recorded beside the entry, the file's parent is this directory, and a lookup under any spelling that differs only in case finds the new file; the directory stays valid |
| IgnoreCase.IgnoreCaseDirectory.InsertDirectory | system/lib/wasmfs/backends/ignore_case_backend.cpp:63-74 | an unparented base directory first takes this directory's parent, and must then be linked and free of the lowered name; the base's new, empty directory has the base as parent and is wrapped in a fresh empty ignore-case directory, recorded under the lowered name and spelling and found under any spelling that differs only in case |
| IgnoreCase.IgnoreCaseDirectory.InsertSymlink | system/lib/wasmfs/backends/ignore_case_backend.cpp:76-86 | as for data files, lookup under any spelling included; the target string goes to the base's handle, which stores the internal name of its path string |
| IgnoreCase.IgnoreCaseDirectory.RemoveChild | system/lib/wasmfs/backends/ignore_case_backend.cpp:108-121 | the first entry with the lowered name and the spelling at the same index are removed, keeping the vectors aligned, so the entry names lose exactly the lowered name; the base's code is returned and only a zero code removes the name from the base; the directory stays valid |
| IgnoreCase.IgnoreCaseDirectory.InsertMove | system/lib/wasmfs/backends/ignore_case_backend.cpp:88-106 | the steps run in order (clear the destination, move in the base, drop the old name from the old parent, record the new entry and set the parent), and the first non-zero code stops the move and is returned; on success the file's parent is this directory, both vectors end with the new entry and spelling, and any spelling of the new name that differs only in case finds the file; a refused clear or base move leaves this directory's vectors as the clear left them and, across directories, the old parent untouched; once the base move succeeds across directories, the base maps the lowered name to the file, the old parent has lost the old name's entry and spelling (and, unless refused, the name in its base), and the destination's vectors are the cleared ones plus, on success, the new entry and spelling |
| IgnoreCase.IgnoreCaseDirectory.MoveFrom | system/lib/wasmfs/backends/ignore_case_backend.cpp:93-105 | the steps after the destination is cleared, with the same error order and effects, stated on both vectors and both bases of both directories, and for a rename within one directory relative to the vectors without the old name |
| IgnoreCase.IgnoreCaseDirectory.Relink | system/lib/wasmfs/backends/ignore_case_backend.cpp:99-105 | the old parent's removal code is returned; the old parent loses the old key's entry and spelling, and its base loses the key unless refused; on success the new entry and spelling are appended here, found under any spelling, and the file's parent is this directory; both directories stay valid |
| IgnoreCase.IgnoreCaseDirectory.NameOf | system/lib/wasmfs/backends/ignore_case_backend.cpp:142-148 | the spelling at the index of the first entry holding the file, or "" when none does |
| IgnoreCase.IgnoreCaseDirectory.GetName | system/lib/wasmfs/backends/ignore_case_backend.cpp:142-148 | the loop returns that spelling; a non-empty answer lowers to the name of an entry holding the file |
| IgnoreCase.IgnoreCaseDirectory.Renamed | system/lib/wasmfs/backends/ignore_case_backend.cpp:133-137 | a listed entry keeps its kind and inode, and a lowered name is replaced only by a spelling that lowers back to it |
| IgnoreCase.IgnoreCaseDirectory.GetEntries | system/lib/wasmfs/backends/ignore_case_backend.cpp:127-140 | a base error is passed on; otherwise the base's listing, same length and order, with each entry renamed |
| IgnoreCase.RenamedDistinct | system/lib/wasmfs/backends/ignore_case_backend.cpp:127-140 | distinct lowered names in the base's listing stay distinct after renaming, so a name is reported once |
| IgnoreCase.RemoveKeepsPairs | system/lib/wasmfs/backends/ignore_case_backend.cpp:115-119 | removing the same index from both vectors keeps them aligned and each entry the lowering of its spelling |
| IgnoreCase.RemoveNamedKeeps | system/lib/wasmfs/backends/ignore_case_backend.cpp:110-119 | removing the first entry with a name from entries with distinct names leaves distinct names, exactly the old ones without that name |
| IgnoreCase.IgnoreCaseDirectory.GetNumEntries | system/lib/wasmfs/backends/ignore_case_backend.cpp:123-125 | the count is the base's number of names |
| IgnoreCase.IgnoreCaseDirectory.MaintainsFileIdentity | system/lib/wasmfs/backends/ignore_case_backend.cpp:150 | always true |
| IgnoreCase.CreateSymlink | system/lib/wasmfs/backends/ignore_case_backend.cpp:170-172 | the symlink is created with the lowered target |

## Left out

- `DataFile::Handle::preloadFromJS` (file.cpp:25-37): a call into JavaScript.
- Locking (`locked()` and the `Handle` discipline) and threads: the model is single-threaded plain field access.
- `time(NULL)`: the clock is the parameter `now`.
- Locales: `tolower` is modelled for ASCII `A`-`Z` only.
- Bytes: a `std::string` is a sequence of `char`, signed on most targets, and `std::tolower` of a negative `char` is undefined. The model's strings are sequences of Dafny characters, and `ToLower` changes only `A`-`Z`.
- The `MemoryDirectory` base class and the concrete backends are not part of this model. A dcache directory's backend is its `store` map with `maintainsFileIdentity` as the constant `identity`. The ignore-case base directory is `BaseDirectory`, a name-to-file map whose error codes are the `refusal` parameters. The entries vector is a sequence searched front to back.
- `IgnoreCase.IgnoreCaseDirectory.InsertMove`: the old parent is modelled as another ignore-case directory, not as any directory reached through a generic handle. For a rename within one directory the contract states the error code, the invariant, the parent pointer, the vectors after a refused clear or move, and that the new entry ends the vectors, but not the full final vectors; `MoveFrom` states those relative to its own start.
- `IgnoreCase.BaseDirectory`: the base's name-to-file map, its handle's unlinked check and the parent its handle gives a new child are modelled. Its handle's own cache and mtime are not. Its handle's `-EPERM` for an unlinked base on a move (file.cpp:155-157) is one of the values of `moveRefusal`.
- `IgnoreCase.IgnoreCaseDirectory.RemoveChild`, `IgnoreCase.IgnoreCaseDirectory.Relink`: two calls use a handle's `removeChild`, which returns a `bool` (file.cpp:201), as an integer error code. At ignore_case_backend.cpp:120 it is the base's handle. At line 100 it is the old parent's handle (`file->locked().getParent()->locked()`, line 93). Read as the handle writes it, a successful removal is `true`: at line 100 `insertMove` would then return 1 before `insertChild` (lines 100-103), and at line 120 `removeChild` would return 1. The model treats both answers as integer codes where 0 means success, the reading the callers assume.
- `IgnoreCase.IgnoreCaseDirectory.RemoveChild`: the error branch after `BaseClass::removeChild` (ignore_case_backend.cpp:113-114) is not modelled; the in-memory base removal is taken to succeed.
- `IgnoreCase.IgnoreCaseDirectory.InsertDirectory`: requires the base to accept the name, because the source wraps the base's result without checking it for null.
- `IgnoreCase.IgnoreCaseDirectory.InsertMove`, `IgnoreCase.IgnoreCaseDirectory.MoveFrom`: a rename within one directory requires a non-empty new name. With an empty name the old key looked up for a file already dropped is also empty, so the base would lose the new key while the entry is recorded; path resolution never passes an empty component.
- `DirCache.File.RemoveChild`: the backend's removal is modelled as a success flag, as file.cpp reads it, not as the integer code the ignore-case layer returns. The dcache engine and the ignore-case directory are modelled side by side, not composed.
- `DirCache.File.InsertMove`: moving mount points (the TODO at file.cpp:166-167) is not modelled beyond what the code does.
- `std::map` key order: listings are specified up to order (`DirCache.Enumerate`), and the searches by file identity return some matching key rather than the least.
- `IgnoreCaseBackend::createFile` and `createDirectory` (simple forwarding), the backend registry and the C API.

## Findings

| source | as written | input that shows it | evidently intended | confidence | as-written member | corrected member |
|---|---|---|---|---|---|---|
| system/lib/wasmfs/file.cpp:176-185 | a rename stores the old cache entry unchanged under the new key, so in case-insensitive builds it keeps the old `originalName` | move a cached file "Foo" to "Bar": `getName` and `getEntries` still report "Foo" | the entry re-keyed under the new name carries the new public name | not executed | DirCache.StaleNameAfterMove | DirCache.File.RecacheFixed |

=== FILE: dcache.dfy ===
/** The per-directory name cache ("dcache") of file.cpp, layered over the
    directory's backend. Files of every kind are objects of one class; a
    directory's backend is its own abstract name-to-file map `store`. */
module DirCache {
  import opened PathKeys
  import opened Entries

  /** EPERM in Emscripten's errno numbering (that of WASI); insertMove
      returns its negation. */
  const EPERM: int := 63

  datatype FileKind = DataFileKind | DirectoryKind | SymlinkKind

  datatype DCacheKind = Normal | Mount

  /** A dcache value: its kind, the child, and the name as the caller spelled it. */
  datatype DCacheEntry = DCacheEntry(kind: DCacheKind, file: File, originalName: string)

  /** A listing entry. WasmFS uses a file's address as its inode number, so
      `ino` is the file object itself. */
  datatype DirEntry = DirEntry(name: string, kind: FileKind, ino: File)

  /** The display name of a dcache entry stored under `key`: the original
      spelling in case-insensitive builds when one was recorded, else the key. */
  function DisplayName(key: string, e: DCacheEntry, caseInsensitive: bool): string {
    if caseInsensitive && e.originalName != [] then e.originalName else key
  }

  /** As written, a case-insensitive rename of a cached file keeps reporting
      the old spelling: after `Recache` moves the entry of "Foo" to "Bar",
      the name shown under the new key is still "Foo". */
  method StaleNameAfterMove() returns (shown: string)
    ensures shown == "Foo"
  {
    var dir := new File(DirectoryKind, 0, false, []);
    var f := new File(DataFileKind, 0, false, []);
    dir.dcache := map["foo" := DCacheEntry(Normal, f, "Foo")];
    f.parent := dir;
    var name := MakePath(true, "Bar");
    assert name.InternalName() == "bar";
    dir.Recache(dir, "foo", name, f);
    shown := DisplayName(name.InternalName(), dir.dcache[name.InternalName()], true);
  }

  /** The corrected entry for the new name (used by `RecacheFixed`): the
      same file and kind, with the spelling of the new name. */
  function RekeyedEntry(entry: DCacheEntry, name: PathString): (e: DCacheEntry)
    ensures e.file == entry.file && e.kind == entry.kind
    ensures DisplayName(name.InternalName(), e, name.caseInsensitive) == name.PublicName()
  {
    entry.(originalName := name.PublicName())
  }

  /** The files of a cache, by key. */
  function FilesOf(d: map<string, DCacheEntry>): (m: map<string, File>)
    ensures m.Keys == d.Keys
    ensures forall k :: k in d ==> m[k] == d[k].file
  {
    map k | k in d :: d[k].file
  }

  /** The mount entries of a cache, by key. */
  function MountFiles(d: map<string, DCacheEntry>): (m: map<string, File>)
    ensures forall k :: k in m <==> k in d && d[k].kind == Mount
    ensures forall k :: k in m ==> m[k] == d[k].file
  {
    map k | k in d && d[k].kind == Mount :: d[k].file
  }

  /** Each file is cached under one key. */
  predicate CacheInjective(d: map<string, DCacheEntry>) {
    forall k, j :: k in d && j in d && d[k].file == d[j].file ==> k == j
  }

  /** The shape of a directory's cache and backend: each file is cached
      under one key, a cached file the backend also holds is cached under
      its backend name, and the backend holds each file under one name. */
  predicate CacheShape(d: map<string, DCacheEntry>, st: map<string, File>) {
    && CacheInjective(d)
    && (forall j, k :: j in st && k in d && st[j] == d[k].file ==> j == k)
    && (forall j, i :: j in st && i in st && st[j] == st[i] ==> j == i)
  }

  /** `m` holds some of the entries of `n`, unchanged. */
  predicate SubMap<V(==)>(m: map<string, V>, n: map<string, V>) {
    forall j :: j in m ==> j in n && m[j] == n[j]
  }

  /** Dropping entries from cache or backend keeps the shape. */
  lemma ShapeOfSubMaps(d: map<string, DCacheEntry>, st: map<string, File>,
                       d': map<string, DCacheEntry>, st': map<string, File>)
    requires CacheShape(d, st) && SubMap(d', d) && SubMap(st', st)
    ensures CacheShape(d', st')
  {
    forall k, j | k in d' && j in d' && d'[k].file == d'[j].file ensures k == j {
      assert d[k] == d'[k] && d[j] == d'[j];
    }
    forall j, k | j in st' && k in d' && st'[j] == d'[k].file ensures j == k {
      assert st[j] == st'[j] && d[k] == d'[k];
    }
    forall j, i | j in st' && i in st' && st'[j] == st'[i] ensures j == i {
      assert st[j] == st'[j] && st[i] == st'[i];
    }
  }

  /** Storing `e.file` under `key` in the backend when `stored`, and caching
      `e` there when `cached`, keeps the shape if no other key of either map
      holds that file. */
  lemma ShapeOfPut(d: map<string, DCacheEntry>, st: map<string, File>, key: string, e: DCacheEntry,
                   cached: bool, stored: bool)
    requires CacheShape(d, st)
    requires forall k :: k in d && k != key ==> d[k].file != e.file
    requires !cached ==> forall k :: k in d ==> d[k].file != e.file
    requires forall j :: j in st && j != key ==> st[j] != e.file
    ensures CacheShape(if cached then d[key := e] else d, if stored then st[key := e.file] else st)
  {
    var d' := if cached then d[key := e] else d;
    var st' := if stored then st[key := e.file] else st;
    forall j, k | j in st' && k in d' && st'[j] == d'[k].file ensures j == k {
      if j != key && k != key {
        assert st[j] == st'[j] && d[k] == d'[k];
      } else if !stored && j == key && k != key {
        assert st[j] == st'[j] && d[k] == d'[k];
      }
    }
    forall k, j | k in d' && j in d' && d'[k].file == d'[j].file ensures k == j {
      if k != key && j != key {
        assert d[k] == d'[k] && d[j] == d'[j];
      }
    }
    forall j, i | j in st' && i in st' && st'[j] == st'[i] ensures j == i {
      if j != key && i != key {
        assert st[j] == st'[j] && st[i] == st'[i];
      }
    }
  }

  /** The backend and cache of a move's destination keep their shape: with
      `same` the file moves within the directory from the cache key `found`
      (if any), otherwise it comes from another directory whose cache `od`
      holds it under `found` (if at all). */
  lemma MoveKeepsShape(d: map<string, DCacheEntry>, st: map<string, File>, od: map<string, DCacheEntry>,
                       key: string, file: File, found: Option<string>, same: bool)
    requires CacheShape(d, st)
    requires same ==> od == d
    requires !same ==> (forall k :: k in d ==> d[k].file != file) && (forall j :: j in st ==> st[j] != file)
    requires found.Some? ==> found.value in od && od[found.value].file == file
    requires found.None? ==> forall k :: k in od ==> od[k].file != file
    ensures CacheShape(
              if found.None? then d
              else if same then (d - {found.value})[key := d[found.value]]
              else d[key := od[found.value]],
              if same then Unstored(st, file)[key := file] else st[key := file])
  {
    var e := if found.Some? then od[found.value] else DCacheEntry(Normal, file, []);
    if !same {
      ShapeOfPut(d, st, key, e, found.Some?, true);
    } else {
      var d1 := if found.Some? then d - {found.value} else d;
      var st1 := Unstored(st, file);
      ShapeOfSubMaps(d, st, d1, st1);
      ShapeOfPut(d1, st1, key, e, found.Some?, true);
    }
  }

  /** The backend entries of `m` that do not hold `file`. */
  function Unstored(m: map<string, File>, file: File): (r: map<string, File>)
    ensures SubMap(r, m)
    ensures forall j :: j in m ==> (j in r <==> m[j] != file)
  {
    map k | k in m && m[k] != file :: m[k]
  }

  /** `r` lists the map `m`: every key exactly once, with the kind and
      identity of its file. */
  predicate Lists(r: seq<DirEntry>, m: map<string, File>) {
    && |r| == |m.Keys|
    && (forall i :: 0 <= i < |r| ==> r[i].name in m && r[i] == DirEntry(r[i].name, m[r[i].name].kind, m[r[i].name]))
    && (forall i, j :: 0 <= i < j < |r| ==> r[i].name != r[j].name)
    && (forall k :: k in m ==> exists i :: 0 <= i < |r| && r[i].name == k)
  }

  /** Each entry of two joined listings carries its own file's kind. */
  lemma ListedKinds(a: seq<DirEntry>, b: seq<DirEntry>, m: map<string, File>, n: map<string, File>)
    requires Lists(a, m) && Lists(b, n)
    ensures forall i :: 0 <= i < |a + b| ==> (a + b)[i].kind == (a + b)[i].ino.kind
  {
    forall i | 0 <= i < |a + b| ensures (a + b)[i].kind == (a + b)[i].ino.kind {
      if i < |a| {
        assert (a + b)[i] == a[i];
      } else {
        assert (a + b)[i] == b[i - |a|];
      }
    }
  }

  /** A listing of `m` in some order (std::map walks keys in sorted order; the
      model leaves the order open). */
  method Enumerate(m: map<string, File>) returns (r: seq<DirEntry>)
    ensures Lists(r, m)
  {
    r := [];
    var todo := m.Keys;
    while todo != {}
      invariant todo <= m.Keys
      invariant |r| + |todo| == |m.Keys|
      invariant forall i :: 0 <= i < |r| ==> r[i].name in m && r[i].name !in todo
      invariant forall i :: 0 <= i < |r| ==> r[i] == DirEntry(r[i].name, m[r[i].name].kind, m[r[i].name])
      invariant forall i, j :: 0 <= i < j < |r| ==> r[i].name != r[j].name
      invariant forall k :: k in m && k !in todo ==> exists i :: 0 <= i < |r| && r[i].name == k
      decreases |todo|
    {
      var k :| k in todo;
      ghost var r0 := r;
      r := r + [DirEntry(k, m[k].kind, m[k])];
      assert forall i :: 0 <= i < |r0| ==> r[i] == r0[i];
      assert r[|r0|].name == k;
      todo := todo - {k};
    }
  }

  /** Some key whose value is `v`, or None when no key has it (a linear search
      of the map). */
  method KeyHolding(m: map<string, File>, v: File) returns (k: Option<string>)
    ensures k.Some? ==> k.value in m && m[k.value] == v
    ensures k.None? <==> forall j :: j in m ==> m[j] != v
  {
    var todo := m.Keys;
    while todo != {}
      invariant todo <= m.Keys
      invariant forall j :: j in m && j !in todo ==> m[j] != v
      decreases |todo|
    {
      var j :| j in todo;
      if m[j] == v {
        return Some(j);
      }
      todo := todo - {j};
    }
    return None;
  }

  predicate IsDotName(s: string) {
    s == "." || s == ".."
  }

  class File {
    const kind: FileKind
    const mode: int
    /** The backend's `maintainsFileIdentity()` (meaningful for directories). */
    const identity: bool
    /** A symlink's target. */
    const target: string
    /** Non-owning back pointer to the containing directory; null when unlinked. */
    var parent: File?
    var mtime: int
    var dcache: map<string, DCacheEntry>
    /** The backend's own children of this directory. */
    var store: map<string, File>

    constructor (kind: FileKind, mode: int, identity: bool, target: string)
      ensures this.kind == kind && this.mode == mode && this.identity == identity && this.target == target
      ensures parent == null && mtime == 0 && dcache == map[] && store == map[]
    {
      this.kind := kind;
      this.mode := mode;
      this.identity := identity;
      this.target := target;
      parent := null;
      mtime := 0;
      dcache := map[];
      store := map[];
    }

    // ---- The backend directory (concrete backends are not part of this model) ----

    /** The backend's own lookup. */
    function BackendChild(name: string): (r: File?)
      reads this
      ensures r != null <==> name in store
      ensures r != null ==> r == store[name]
    {
      if name in store then store[name] else null
    }

    /** Creates a child of the given kind, unless the backend already has the name. */
    method BackendCreate(name: string, kind: FileKind, mode: int, target: string) returns (r: File?)
      modifies this`store
      ensures r == null <==> name in old(store)
      ensures r == null ==> store == old(store)
      ensures r != null ==> fresh(r) && r.kind == kind && r.parent == null && r.target == target
      ensures r != null ==> r.dcache == map[] && r.store == map[] && store == old(store)[name := r]
    {
      if name in store {
        return null;
      }
      r := new File(kind, mode, identity, target);
      store := store[name := r];
    }

    /** Moves `file` from its parent's backend entries to `name` here; a
        non-zero `refusal` is the backend's opaque error and changes nothing. */
    method BackendMove(name: string, file: File, refusal: int) returns (err: int)
      requires file.parent != null
      modifies this`store, file.parent`store
      ensures err == refusal
      ensures refusal != 0 ==> store == old(store) && file.parent.store == old(file.parent.store)
      ensures refusal == 0 ==> name in store && store[name] == file
      ensures refusal == 0 && file.parent != this ==>
                file.parent.store == Unstored(old(file.parent.store), file) && store == old(store)[name := file]
      ensures refusal == 0 && file.parent == this ==> store == Unstored(old(store), file)[name := file]
    {
      if refusal != 0 {
        return refusal;
      }
      var from := file.parent;
      from.store := Unstored(from.store, file);
      store := store[name := file];
      return 0;
    }

    /** Removes `name` from the backend; false when it has no such child. */
    method BackendRemove(name: string) returns (removed: bool)
      modifies this`store
      ensures removed == (name in old(store))
      ensures store == old(store) - {name}
    {
      removed := name in store;
      store := store - {name};
    }

    // ---- The dcache engine (Directory::Handle) ----

    /** What the cache answers for an internal name, before asking the backend. */
    function Lookup(key: string): (r: File?)
      reads this
      ensures key in dcache ==> r == dcache[key].file
      ensures key !in dcache ==> r == BackendChild(key)
    {
      if key in dcache then dcache[key].file else BackendChild(key)
    }

    function CachedFiles(): set<File>
      reads this`dcache
    {
      set k | k in dcache :: dcache[k].file
    }

    /** The cache invariant: every cached file has this directory as its
        parent, and cache and backend have the shape `CacheShape` describes. */
    predicate Adopted()
      reads this`dcache, this`store, CachedFiles()`parent
    {
      CacheShape(dcache, store) && Parents()
    }

    /** Every cached file has this directory as its parent. */
    predicate Parents()
      reads this`dcache, CachedFiles()`parent
    {
      forall k :: k in dcache ==> dcache[k].file.parent == this
    }

    /** A file with another parent is not cached here. */
    lemma NotCachedHere(file: File)
      requires Parents() && file.parent != this
      ensures file !in CachedFiles()
      ensures forall k :: k in dcache ==> dcache[k].file != file
    {
    }

    /** Records `child` under `name` (unless the backend keeps identity and
        this is a Normal entry) and makes this directory its parent. */
    method CacheChild(name: PathString, child: File, kind: DCacheKind)
      requires (kind == Mount || !identity) ==> name.InternalName() !in dcache
      requires child.parent == null || child.parent == this
      modifies this`dcache, child`parent
      ensures child.parent == this
      ensures dcache == if kind == Mount || !identity
                        then old(dcache)[name.InternalName() := DCacheEntry(kind, child, name.PublicName())]
                        else old(dcache)
      ensures (&& old(Adopted()) && child !in old(CachedFiles())
               && forall j :: j in store && store[j] == child ==> j == name.InternalName())
              ==> Adopted()
    {
      if Adopted() && child !in CachedFiles() && (forall j :: j in store && store[j] == child ==> j == name.InternalName()) {
        assert forall k :: k in dcache ==> dcache[k].file in CachedFiles();
        ShapeOfPut(dcache, store, name.InternalName(), DCacheEntry(kind, child, name.PublicName()),
                   kind == Mount || !identity, false);
      }
      if kind == Mount || !identity {
        dcache := dcache[name.InternalName() := DCacheEntry(kind, child, name.PublicName())];
      }
      child.parent := this;
    }

    /** Whether a backend child found under `key` may be adopted by this directory. */
    predicate MayAdoptBackendChild(key: string)
      reads this, store.Values
    {
      key !in dcache && key in store ==> store[key].parent == null || store[key].parent == this
    }

    method GetChild(name: PathString) returns (r: File?)
      requires parent != null && !IsDotName(name.PublicName()) ==> MayAdoptBackendChild(name.InternalName())
      modifies this`dcache, store.Values`parent
      ensures old(parent) == null ==> r == null
      ensures old(parent) != null && name.PublicName() == "." ==> r == this
      ensures old(parent) != null && name.PublicName() == ".." ==> r == old(parent)
      ensures old(parent) != null && !IsDotName(name.PublicName()) ==> r == old(Lookup(name.InternalName()))
      ensures var key := name.InternalName();
              if old(parent) != null && !IsDotName(name.PublicName()) && key !in old(dcache) && r != null
              then r.parent == this
                   && dcache == (if identity then old(dcache) else old(dcache)[key := DCacheEntry(Normal, r, name.PublicName())])
              else dcache == old(dcache)
      ensures forall f :: f in old(store.Values) && f != r ==> f.parent == old(f.parent)
      ensures !(old(parent) != null && !IsDotName(name.PublicName()) && name.InternalName() !in old(dcache) && r != null) ==>
                forall f :: f in old(store.Values) ==> f.parent == old(f.parent)
      ensures old(Adopted()) ==> Adopted()
    {
      if parent == null {
        return null;
      }
      if name.PublicName() == "." {
        return this;
      }
      if name.PublicName() == ".." {
        return parent;
      }
      var key := name.InternalName();
      if key in dcache {
        return dcache[key].file;
      }
      r := BackendChild(key);
      if r == null {
        return null;
      }
      if Adopted() {
        // The backend's child under a key the cache lacks is not cached.
        assert forall k :: k in dcache ==> dcache[k].file != r;
      }
      CacheChild(name, r, Normal);
    }

    method MountChild(name: PathString, child: File) returns (ok: bool)
      requires parent != null ==> name.InternalName() !in dcache && (child.parent == null || child.parent == this)
      modifies this`dcache, child`parent
      ensures ok == (old(parent) != null)
      ensures ok ==> dcache == old(dcache)[name.InternalName() := DCacheEntry(Mount, child, name.PublicName())]
      ensures ok ==> child.parent == this
      ensures !ok ==> dcache == old(dcache) && child.parent == old(child.parent)
      ensures (&& old(Adopted()) && child !in old(CachedFiles())
               && forall j :: j in store && store[j] == child ==> j == name.InternalName())
              ==> Adopted()
    {
      if parent == null {
        return false;
      }
      CacheChild(name, child, Mount);
      return true;
    }

    /** Whether a child that the backend accepts under `name` can be cached
        (the assertion in cacheChild). */
    predicate CanCacheNew(name: PathString)
      reads this
    {
      parent != null && name.InternalName() !in store ==> identity || name.InternalName() !in dcache
    }

    /** The common tail of the three insert operations: ask the backend to
        create the child, then cache it and touch the modification time. */
    method InsertNew(name: PathString, kind: FileKind, mode: int, target: string, now: int) returns (r: File?)
      requires CanCacheNew(name)
      modifies this`dcache, this`store, this`mtime
      ensures var key := name.InternalName();
              r == null <==> old(parent) == null || key in old(store)
      ensures r == null ==> dcache == old(dcache) && store == old(store) && mtime == old(mtime)
      ensures r != null ==> fresh(r) && r.kind == kind && r.target == target && r.parent == this
      ensures r != null ==> r.dcache == map[] && r.store == map[]
      ensures var key := name.InternalName();
              r != null ==> && store == old(store)[key := r]
                            && dcache == (if identity then old(dcache) else old(dcache)[key := DCacheEntry(Normal, r, name.PublicName())])
                            && mtime == now
                            && (key !in old(dcache) ==> Lookup(key) == r)
      ensures old(Adopted()) ==> Adopted()
    {
      if parent == null {
        return null;
      }
      ghost var d0, st0 := dcache, store;
      ghost var adopted := Adopted();
      r := BackendCreate(name.InternalName(), kind, mode, target);
      if r == null {
        return null;
      }
      if adopted {
        ShapeOfPut(d0, st0, name.InternalName(), DCacheEntry(Normal, r, []), false, true);
        assert CacheShape(dcache, store);
      }
      CacheChild(name, r, Normal);
      mtime := now;
    }

    method InsertDataFile(name: PathString, mode: int, now: int) returns (r: File?)
      requires CanCacheNew(name)
      modifies this`dcache, this`store, this`mtime
      ensures r == null <==> old(parent) == null || name.InternalName() in old(store)
      ensures r == null ==> dcache == old(dcache) && store == old(store) && mtime == old(mtime)
      ensures r != null ==> fresh(r) && r.kind == DataFileKind && r.parent == this && mtime == now
      ensures r != null && name.InternalName() !in old(dcache) ==> Lookup(name.InternalName()) == r
      ensures r != null ==> store == old(store)[name.InternalName() := r]
      ensures r != null && !identity ==> dcache == old(dcache)[name.InternalName() := DCacheEntry(Normal, r, name.PublicName())]
      ensures r != null && identity ==> dcache == old(dcache)
      ensures old(Adopted()) ==> Adopted()
    {
      r := InsertNew(name, DataFileKind, mode, [], now);
    }

    method InsertDirectory(name: PathString, mode: int, now: int) returns (r: File?)
      requires CanCacheNew(name)
      modifies this`dcache, this`store, this`mtime
      ensures r == null <==> old(parent) == null || name.InternalName() in old(store)
      ensures r == null ==> dcache == old(dcache) && store == old(store) && mtime == old(mtime)
      ensures r != null ==> fresh(r) && r.kind == DirectoryKind && r.parent == this && mtime == now
      ensures r != null ==> r.dcache == map[] && r.store == map[]
      ensures r != null && name.InternalName() !in old(dcache) ==> Lookup(name.InternalName()) == r
      ensures r != null ==> store == old(store)[name.InternalName() := r]
      ensures r != null && !identity ==> dcache == old(dcache)[name.InternalName() := DCacheEntry(Normal, r, name.PublicName())]
      ensures r != null && identity ==> dcache == old(dcache)
      ensures old(Adopted()) ==> Adopted()
    {
      r := InsertNew(name, DirectoryKind, mode, [], now);
    }

    /** The backend receives the target's internal name. */
    method InsertSymlink(name: PathString, target: PathString, now: int) returns (r: File?)
      requires CanCacheNew(name)
      modifies this`dcache, this`store, this`mtime
      ensures r == null <==> old(parent) == null || name.InternalName() in old(store)
      ensures r == null ==> dcache == old(dcache) && store == old(store) && mtime == old(mtime)
      ensures r != null ==> fresh(r) && r.kind == SymlinkKind && r.parent == this && mtime == now
      ensures r != null ==> r.target == target.InternalName()
      ensures r != null && name.InternalName() !in old(dcache) ==> Lookup(name.InternalName()) == r
      ensures r != null ==> store == old(store)[name.InternalName() := r]
      ensures r != null && !identity ==> dcache == old(dcache)[name.InternalName() := DCacheEntry(Normal, r, name.PublicName())]
      ensures r != null && identity ==> dcache == old(dcache)
      ensures old(Adopted()) ==> Adopted()
    {
      r := InsertNew(name, SymlinkKind, 0, target.InternalName(), now);
    }

    /** The consistency assertion of insertMove: a file that its old parent
        does not cache must come from a backend that keeps identity. */
    predicate MoveIsConsistent(file: File)
      reads this, file, file.parent
    {
      (parent != null && file.parent != null && (forall k :: k in file.parent.dcache ==> file.parent.dcache[k].file != file))
        ==> identity
    }

    /** The single-element set of `file`'s parent, or empty when it has none. */
    static function ParentSet(file: File): set<File>
      reads file
    {
      if file.parent == null then {} else {file.parent}
    }

    /** The cache half of a successful move, as the source writes it: the old
        parent's entry `k` for `file` leaves that cache and is stored here,
        unchanged, under the new name; a file cached here under that name is
        detached first. */
    method Recache(from: File, k: string, name: PathString, file: File)
      requires k in from.dcache && from.dcache[k].file == file
      modifies from`dcache, this`dcache, file`parent, CachedFiles()`parent
      ensures var key := name.InternalName();
              from != this ==> && from.dcache == old(from.dcache) - {k}
                               && dcache == old(dcache)[key := old(from.dcache)[k]]
      ensures var key := name.InternalName();
              from == this ==> dcache == (old(dcache) - {k})[key := old(dcache)[k]]
      ensures file.parent == this
      ensures var key := name.InternalName();
              key in old(dcache) && !(from == this && key == k) && old(dcache)[key].file != file ==>
                old(dcache)[key].file.parent == null
      ensures var key := name.InternalName();
              forall f :: f in old(CachedFiles()) && f != file && !(key in old(dcache) && f == old(dcache)[key].file) ==>
                f.parent == old(f.parent)
      ensures (&& old(Parents()) && CacheInjective(old(dcache))
               && (from != this ==> file !in old(CachedFiles())))
              ==> Parents()
      ensures (&& from != this && old(Parents()) && old(from.Parents()) && CacheInjective(old(from.dcache)))
              ==> from.Parents()
    {
      var entry := from.dcache[k];
      from.dcache := from.dcache - {k};
      var key := name.InternalName();
      if key in dcache {
        dcache[key].file.parent := null;
      }
      dcache := dcache[key := entry];
      file.parent := this;
    }

    /** `Recache` with the entry re-spelt for the new name, so that a
        case-insensitive rename shows the new spelling. */
    method RecacheFixed(from: File, k: string, name: PathString, file: File)
      requires k in from.dcache && from.dcache[k].file == file
      modifies from`dcache, this`dcache, file`parent, CachedFiles()`parent
      ensures var key := name.InternalName();
              from != this ==> && from.dcache == old(from.dcache) - {k}
                               && dcache == old(dcache)[key := RekeyedEntry(old(from.dcache)[k], name)]
      ensures var key := name.InternalName();
              from == this ==> dcache == (old(dcache) - {k})[key := RekeyedEntry(old(dcache)[k], name)]
      ensures var key := name.InternalName();
              && file.parent == this && key in dcache && dcache[key].file == file
              && DisplayName(key, dcache[key], name.caseInsensitive) == name.PublicName()
      ensures var key := name.InternalName();
              key in old(dcache) && !(from == this && key == k) && old(dcache)[key].file != file ==>
                old(dcache)[key].file.parent == null
      ensures var key := name.InternalName();
              forall f :: f in old(CachedFiles()) && f != file && !(key in old(dcache) && f == old(dcache)[key].file) ==>
                f.parent == old(f.parent)
      ensures (&& old(Parents()) && CacheInjective(old(dcache))
               && (from != this ==> file !in old(CachedFiles())))
              ==> Parents()
      ensures (&& from != this && old(Parents()) && old(from.Parents()) && CacheInjective(old(from.dcache)))
              ==> from.Parents()
    {
      Recache(from, k, name, file);
      var key := name.InternalName();
      dcache := dcache[key := RekeyedEntry(dcache[key], name)];
    }

    /** The cache half of an accepted move: `found` is the old parent's key
        for `file`, if it caches it; both directories take the time `now`. */
    method MoveCached(oldParent: File, found: Option<string>, name: PathString, file: File, now: int)
      requires file.parent == oldParent
      requires found.Some? ==> found.value in oldParent.dcache && oldParent.dcache[found.value].file == file
      modifies this`dcache, this`mtime, oldParent`dcache, oldParent`mtime, file`parent, CachedFiles()`parent
      ensures mtime == now && oldParent.mtime == now
      ensures var key := name.InternalName();
              found.Some? ==>
                && file.parent == this && key in dcache && dcache[key].file == file
                && (oldParent != this ==>
                      && oldParent.dcache == old(oldParent.dcache) - {found.value}
                      && dcache == old(dcache)[key := old(oldParent.dcache)[found.value]])
                && (oldParent == this ==>
                      dcache == (old(dcache) - {found.value})[key := old(dcache)[found.value]])
                && (key in old(dcache) && !(oldParent == this && key == found.value) && old(dcache)[key].file != file ==>
                      old(dcache)[key].file.parent == null)
      ensures found.None? ==> dcache == old(dcache) && oldParent.dcache == old(oldParent.dcache) && file.parent == old(file.parent)
      ensures var key := name.InternalName();
              forall f :: f in old(CachedFiles()) && f != file && !(key in old(dcache) && f == old(dcache)[key].file) ==>
                f.parent == old(f.parent)
      ensures (&& old(Parents()) && CacheInjective(old(dcache))
               && (oldParent != this ==> file !in old(CachedFiles())))
              ==> Parents()
      ensures (&& oldParent != this && old(Parents()) && old(oldParent.Parents()) && CacheInjective(old(oldParent.dcache)))
              ==> oldParent.Parents()
    {
      if found.Some? {
        Recache(oldParent, found.value, name, file);
      }
      oldParent.mtime := now;
      mtime := now;
    }

    /** Renames `file` to `name` in this directory. `refusal` is the backend's
        verdict (0 accepts); `now` is the clock. `oldKey` is the old parent's
        cache key for `file` that the search found, if any. */
    method InsertMove(name: PathString, file: File, now: int, refusal: int) returns (err: int, ghost oldKey: Option<string>)
      requires parent != null ==> file.parent != null
      requires refusal == 0 ==> MoveIsConsistent(file)
      modifies this`dcache, this`store, this`mtime, ParentSet(file)`dcache, ParentSet(file)`store, ParentSet(file)`mtime
      modifies file`parent, CachedFiles()`parent
      ensures old(parent) == null ==>
                && err == -EPERM && dcache == old(dcache) && store == old(store) && mtime == old(mtime)
                && file.parent == old(file.parent)
                && (old(file.parent) != null ==>
                      && old(file.parent).dcache == old(file.parent.dcache) && old(file.parent).store == old(file.parent.store)
                      && old(file.parent).mtime == old(file.parent.mtime))
      ensures old(parent) != null && oldKey.Some? ==>
                oldKey.value in old(file.parent.dcache) && old(file.parent.dcache)[oldKey.value].file == file
      ensures old(parent) != null && oldKey.None? ==>
                forall k :: k in old(file.parent.dcache) ==> old(file.parent.dcache)[k].file != file
      ensures old(parent) != null && refusal != 0 ==>
                && err == refusal && dcache == old(dcache) && store == old(store) && mtime == old(mtime)
                && file.parent == old(file.parent) && old(file.parent).dcache == old(file.parent.dcache)
                && old(file.parent).store == old(file.parent.store) && old(file.parent).mtime == old(file.parent.mtime)
      ensures old(parent) != null && refusal == 0 ==>
                && err == 0 && mtime == now && old(file.parent).mtime == now
                && name.InternalName() in store && store[name.InternalName()] == file
      ensures old(parent) != null && refusal == 0 && old(file.parent) != this ==>
                && old(file.parent).store == Unstored(old(file.parent.store), file)
                && store == old(store)[name.InternalName() := file]
      ensures old(parent) != null && refusal == 0 && old(file.parent) == this ==>
                store == Unstored(old(store), file)[name.InternalName() := file]
      ensures var key := name.InternalName();
              old(parent) != null && refusal == 0 && oldKey.Some? ==>
                && file.parent == this && Lookup(key) == file
                && (old(file.parent) != this ==>
                      && old(file.parent).dcache == old(file.parent.dcache) - {oldKey.value}
                      && dcache == old(dcache)[key := old(file.parent.dcache)[oldKey.value]])
                && (old(file.parent) == this ==>
                      dcache == (old(dcache) - {oldKey.value})[key := old(dcache)[oldKey.value]])
                && (key in old(dcache) && !(old(file.parent) == this && key == oldKey.value) && old(dcache)[key].file != file ==>
                      old(dcache)[key].file.parent == null)
      ensures old(parent) == null || refusal != 0 ==> forall f :: f in old(CachedFiles()) ==> f.parent == old(f.parent)
      ensures old(parent) != null && refusal == 0 && oldKey.None? ==>
                && identity && dcache == old(dcache) && file.parent == old(file.parent)
                && old(file.parent).dcache == old(file.parent.dcache)
      ensures var key := name.InternalName();
              forall f :: f in old(CachedFiles()) && f != file && !(key in old(dcache) && f == old(dcache)[key].file) ==>
                f.parent == old(f.parent)
      ensures (&& old(Adopted())
               && (old(file.parent) != this ==> forall j :: j in old(store) ==> old(store)[j] != file))
              ==> Adopted()
      ensures (&& old(file.parent) != null && old(file.parent) != this
               && old(Adopted()) && old(file.parent.Adopted()))
              ==> old(file.parent).Adopted()
    {
      if parent == null {
        return -EPERM, None;
      }
      var oldParent := file.parent;
      ghost var key := name.InternalName();
      ghost var d0, st0, od0, ost0 := dcache, store, oldParent.dcache, oldParent.store;
      ghost var adopted, oldAdopted := Adopted(), oldParent.Adopted();
      if adopted && oldParent != this {
        NotCachedHere(file);
      }
      var found := KeyHolding(FilesOf(oldParent.dcache), file);
      oldKey := found;
      err := BackendMove(name.InternalName(), file, refusal);
      if err != 0 {
        return;
      }
      MoveCached(oldParent, found, name, file, now);
      if adopted && (oldParent != this ==> forall j :: j in st0 ==> st0[j] != file) {
        MoveKeepsShape(d0, st0, od0, key, file, found, oldParent == this);
      }
      if oldParent != this && adopted && oldAdopted {
        ShapeOfSubMaps(od0, ost0, oldParent.dcache, oldParent.store);
      }
      return 0, found;
    }

    method RemoveChild(name: PathString, now: int) returns (ok: bool)
      modifies this`dcache, this`store, this`mtime, CachedFiles()`parent
      ensures var key := name.InternalName();
              key in old(dcache) && old(dcache)[key].kind == Mount ==>
                ok && dcache == old(dcache) - {key} && store == old(store) && mtime == old(mtime)
      ensures var key := name.InternalName();
              !(key in old(dcache) && old(dcache)[key].kind == Mount) ==>
                && ok == (key in old(store))
                && (!ok ==> dcache == old(dcache) && store == old(store) && mtime == old(mtime))
                && (ok ==> dcache == old(dcache) - {key} && store == old(store) - {key} && mtime == now)
                && (ok && key in old(dcache) ==> old(dcache)[key].file.parent == null)
      ensures !ok ==> forall f :: f in old(CachedFiles()) ==> f.parent == old(f.parent)
      ensures var key := name.InternalName();
              key in old(dcache) && old(dcache)[key].kind == Mount ==>
                forall f :: f in old(CachedFiles()) ==> f.parent == old(f.parent)
      ensures var key := name.InternalName();
              forall f :: f in old(CachedFiles()) && !(key in old(dcache) && f == old(dcache)[key].file) ==> f.parent == old(f.parent)
      ensures old(Adopted()) ==> Adopted()
    {
      var key := name.InternalName();
      if key in dcache && dcache[key].kind == Mount {
        dcache := dcache - {key};
        return true;
      }
      var removed := BackendRemove(key);
      if !removed {
        return false;
      }
      if key in dcache {
        dcache[key].file.parent := null;
        dcache := dcache - {key};
      }
      mtime := now;
      return true;
    }

    /** The backend's own reverse lookup: some name holding `file`, or "". */
    method BackendName(file: File) returns (s: string)
      ensures s == [] || (s in store && store[s] == file)
      ensures (exists k :: k in store && store[k] == file) ==> s in store && store[s] == file
      ensures (forall k :: k in store ==> store[k] != file) ==> s == []
    {
      var k := KeyHolding(store, file);
      s := if k.Some? then k.value else [];
    }

    /** Reverse lookup. `caseInsensitive` stands for the build flag. */
    method GetName(file: File, caseInsensitive: bool) returns (s: string)
      ensures identity ==> s == [] || (s in store && store[s] == file)
      ensures identity && (exists k :: k in store && store[k] == file) ==> s in store && store[s] == file
      ensures identity && (forall k :: k in store ==> store[k] != file) ==> s == []
      ensures !identity && (exists k :: k in dcache && dcache[k].file == file) ==>
                exists k :: k in dcache && dcache[k].file == file && s == DisplayName(k, dcache[k], caseInsensitive)
      ensures !identity && (forall k :: k in dcache ==> dcache[k].file != file) ==> s == []
    {
      if identity {
        s := BackendName(file);
        return;
      }
      var k := KeyHolding(FilesOf(dcache), file);
      if k.Some? {
        return DisplayName(k.value, dcache[k.value], caseInsensitive);
      }
      return [];
    }

    /** The backend's entries plus the mount entries, which the backend never sees. */
    method GetNumEntries() returns (n: int)
      ensures n == |store.Keys| + |MountFiles(dcache).Keys|
    {
      var mounts := 0;
      var todo := dcache.Keys;
      assert MountFiles(dcache).Keys * todo == MountFiles(dcache).Keys;
      while todo != {}
        invariant todo <= dcache.Keys
        invariant mounts + |MountFiles(dcache).Keys * todo| == |MountFiles(dcache).Keys|
        decreases |todo|
      {
        var k :| k in todo;
        var rest := todo - {k};
        if dcache[k].kind == Mount {
          assert MountFiles(dcache).Keys * todo == MountFiles(dcache).Keys * rest + {k};
          mounts := mounts + 1;
        } else {
          assert MountFiles(dcache).Keys * todo == MountFiles(dcache).Keys * rest;
        }
        todo := rest;
      }
      n := |store.Keys| + mounts;
    }

    /** A listing entry with its name replaced by the cached original spelling
        when the cache holds the same file under that name. */
    function Restored(e: DirEntry): (r: DirEntry)
      reads this
      ensures r.kind == e.kind && r.ino == e.ino
    {
      if e.name in dcache && dcache[e.name].file == e.ino && dcache[e.name].file.kind == e.kind
      then e.(name := dcache[e.name].originalName)
      else e
    }

    /** `l` is the backend's listing followed by the mount entries. */
    predicate IsFullListing(l: seq<DirEntry>)
      reads this
    {
      && |l| == |store.Keys| + |MountFiles(dcache).Keys|
      && Lists(l[..|store.Keys|], store)
      && Lists(l[|store.Keys|..], MountFiles(dcache))
    }

    /** Replaces each entry's name by the cached original spelling where the
        cache holds the same file under that name. */
    method RestoreNames(l: seq<DirEntry>) returns (r: seq<DirEntry>)
      ensures |r| == |l|
      ensures forall i :: 0 <= i < |l| ==> r[i] == Restored(l[i])
    {
      r := l;
      var i := 0;
      while i < |r|
        invariant 0 <= i <= |r| == |l|
        invariant forall j :: 0 <= j < i ==> r[j] == Restored(l[j])
        invariant forall j :: i <= j < |r| ==> r[j] == l[j]
      {
        r := r[i := Restored(r[i])];
        i := i + 1;
      }
    }

    /** The backend's listing followed by the mount entries, with original
        spellings restored in case-insensitive builds. */
    method GetEntries(caseInsensitive: bool) returns (r: seq<DirEntry>, ghost l: seq<DirEntry>)
      ensures IsFullListing(l)
      ensures |r| == |l| == |store.Keys| + |MountFiles(dcache).Keys|
      ensures forall i :: 0 <= i < |r| ==> r[i] == if caseInsensitive then Restored(l[i]) else l[i]
      ensures !caseInsensitive ==> IsFullListing(r)
      ensures forall i :: 0 <= i < |r| ==> r[i].kind == r[i].ino.kind
    {
      var listing := Enumerate(store);
      var mounts := Enumerate(MountFiles(dcache));
      var all := listing + mounts;
      assert all[..|store.Keys|] == listing && all[|store.Keys|..] == mounts;
      ListedKinds(listing, mounts, store, MountFiles(dcache));
      l := all;
      if caseInsensitive {
        r := RestoreNames(all);
      } else {
        r := all;
      }
    }
  }

  /** Mounting a fresh name adds exactly one to the entry count. */
  lemma MountAddsOneEntry(d: map<string, DCacheEntry>, key: string, f: File, original: string)
    requires key !in d
    ensures |MountFiles(d[key := DCacheEntry(Mount, f, original)]).Keys| == |MountFiles(d).Keys| + 1
  {
    assert MountFiles(d[key := DCacheEntry(Mount, f, original)]).Keys == MountFiles(d).Keys + {key};
  }
}

=== FILE: entries.dfy ===
/** Ordered lists of named children, as kept by in-memory directories (a
    vector of `{name, child}` records searched front to back). */
module Entries {

  datatype Named<T> = Named(name: string, child: T)

  /** Index of the first entry called `name`, or -1 (`findEntry`). */
  function IndexOfName<T>(s: seq<Named<T>>, name: string): (i: int)
    ensures -1 <= i < |s|
    ensures 0 <= i ==> s[i].name == name && forall j :: 0 <= j < i ==> s[j].name != name
    ensures i == -1 <==> forall j :: 0 <= j < |s| ==> s[j].name != name
  {
    if s == [] then -1
    else if s[0].name == name then 0
    else
      var k := IndexOfName(s[1..], name);
      if k < 0 then -1 else k + 1
  }

  /** The names of the entries. */
  function Names<T>(s: seq<Named<T>>): set<string> {
    set i | 0 <= i < |s| :: s[i].name
  }

  /** No two entries share a name. */
  predicate DistinctNames<T>(s: seq<Named<T>>) {
    forall i, j :: 0 <= i < j < |s| ==> s[i].name != s[j].name
  }

  /** Index of the first entry whose child is `c`, or -1. */
  function IndexOfChild<T(==)>(s: seq<Named<T>>, c: T): (i: int)
    ensures -1 <= i < |s|
    ensures 0 <= i ==> s[i].child == c && forall j :: 0 <= j < i ==> s[j].child != c
    ensures i == -1 <==> forall j :: 0 <= j < |s| ==> s[j].child != c
  {
    if s == [] then -1
    else if s[0].child == c then 0
    else
      var k := IndexOfChild(s[1..], c);
      if k < 0 then -1 else k + 1
  }

  /** `s` without its element at `i` (`vector::erase`); unchanged when `i` is
      out of range. */
  function RemoveAt<X>(s: seq<X>, i: int): (r: seq<X>)
    ensures 0 <= i < |s| ==> |r| == |s| - 1
    ensures !(0 <= i < |s|) ==> r == s
  {
    if 0 <= i < |s| then s[..i] + s[i + 1..] else s
  }

  /** The element at `i` after removing index `pos`. */
  lemma RemoveAtIndex<X>(s: seq<X>, pos: int, i: int)
    requires 0 <= pos < |s| && 0 <= i < |s| - 1
    ensures RemoveAt(s, pos)[i] == s[if i < pos then i else i + 1]
  {
  }

  /** Removing one entry keeps the other names apart. */
  lemma RemoveAtDistinct<T>(s: seq<Named<T>>, pos: int)
    requires DistinctNames(s) && 0 <= pos < |s|
    ensures DistinctNames(RemoveAt(s, pos))
  {
    var r := RemoveAt(s, pos);
    forall i, j | 0 <= i < j < |r| ensures r[i].name != r[j].name {
      RemoveAtIndex(s, pos, i);
      RemoveAtIndex(s, pos, j);
    }
  }

  /** Removing one entry of distinct names removes exactly its name. */
  lemma RemoveAtNames<T>(s: seq<Named<T>>, pos: int)
    requires DistinctNames(s) && 0 <= pos < |s|
    ensures Names(RemoveAt(s, pos)) == Names(s) - {s[pos].name}
  {
    var r := RemoveAt(s, pos);
    forall x | x in Names(r) ensures x in Names(s) - {s[pos].name} {
      var i :| 0 <= i < |r| && r[i].name == x;
      RemoveAtIndex(s, pos, i);
      var i' := if i < pos then i else i + 1;
      assert s[i'].name == x && i' != pos;
    }
    forall x | x in Names(s) - {s[pos].name} ensures x in Names(r) {
      var j :| 0 <= j < |s| && s[j].name == x;
      var i := if j < pos then j else j - 1;
      RemoveAtIndex(s, pos, i);
      assert r[i].name == x;
    }
  }

  datatype Option<T> = None | Some(value: T)

}

=== FILE: ignore_case.dfy ===
/** The ignore-case backend (ignore_case_backend.cpp): a directory that lowers
    every name before forwarding to a base directory, and keeps the names as
    first spelled in a vector parallel to its own entries. */
module IgnoreCase {
  import opened PathKeys
  import opened Entries
  import opened DirCache

  /** The base directory's listing, or its error code. */
  datatype MaybeEntries = Listed(entries: seq<DirEntry>) | ListError(code: int)

  /** The directory an ignore-case directory forwards to, reduced to a map
      from name to file, as reached through its handle: inserts fail while it
      has no parent, and a new child gets this directory as its parent.
      Errors it may report are opaque codes passed in as `refusal` (0 means
      it accepts). */
  class BaseDirectory {
    /** This directory as a file (its parent pointer lives here). */
    const node: File
    var files: map<string, File>

    constructor (node: File)
      ensures this.node == node && files == map[]
    {
      this.node := node;
      files := map[];
    }

    method InsertDataFile(name: string, mode: int) returns (r: File?)
      modifies this`files
      ensures r == null <==> node.parent == null || name in old(files)
      ensures r == null ==> files == old(files)
      ensures r != null ==> fresh(r) && r.kind == DataFileKind && r.parent == node && files == old(files)[name := r]
    {
      if node.parent == null || name in files {
        return null;
      }
      r := new File(DataFileKind, mode, false, []);
      files := files[name := r];
      r.parent := node;
    }

    /** The handle passes on the target's internal name. */
    method InsertSymlink(name: string, target: PathString) returns (r: File?)
      modifies this`files
      ensures r == null <==> node.parent == null || name in old(files)
      ensures r == null ==> files == old(files)
      ensures r != null ==> fresh(r) && r.kind == SymlinkKind && r.target == target.InternalName() && r.parent == node
      ensures r != null ==> files == old(files)[name := r]
    {
      if node.parent == null || name in files {
        return null;
      }
      r := new File(SymlinkKind, 0, false, target.InternalName());
      files := files[name := r];
      r.parent := node;
    }

    method InsertDirectory(name: string, mode: int) returns (r: BaseDirectory?)
      modifies this`files
      ensures r == null <==> node.parent == null || name in old(files)
      ensures r == null ==> files == old(files)
      ensures r != null ==> fresh(r) && fresh(r.node) && r.files == map[] && r.node.kind == DirectoryKind
      ensures r != null ==> r.node.parent == node && files == old(files)[name := r.node]
    {
      if node.parent == null || name in files {
        return null;
      }
      var n := new File(DirectoryKind, mode, false, []);
      n.parent := node;
      r := new BaseDirectory(n);
      files := files[name := n];
    }

    method InsertMove(name: string, file: File, refusal: int) returns (err: int)
      modifies this`files
      ensures err == refusal
      ensures files == if refusal != 0 then old(files) else old(files)[name := file]
    {
      if refusal != 0 {
        return refusal;
      }
      files := files[name := file];
      return 0;
    }

    method RemoveChild(name: string, refusal: int) returns (err: int)
      modifies this`files
      ensures err == refusal
      ensures files == if refusal != 0 then old(files) else old(files) - {name}
    {
      if refusal != 0 {
        return refusal;
      }
      files := files - {name};
      return 0;
    }

    method GetEntries(refusal: int) returns (r: MaybeEntries)
      ensures refusal != 0 ==> r == ListError(refusal)
      ensures refusal == 0 ==> r.Listed? && Lists(r.entries, files)
    {
      if refusal != 0 {
        return ListError(refusal);
      }
      var l := Enumerate(files);
      return Listed(l);
    }
  }

  /** The child stored under the lowered form of `name`, if any. */
  function ChildFor(s: seq<Named<File>>, name: string): (r: File?)
    ensures r == null <==> forall j :: 0 <= j < |s| ==> s[j].name != Lowered(name)
    ensures r != null ==> exists j :: 0 <= j < |s| && s[j].name == Lowered(name) && s[j].child == r
  {
    var i := IndexOfName(s, Lowered(name));
    if i < 0 then null else s[i].child
  }

  /** Lookups through the ignore-case directory cannot tell apart names that
      differ only in letter case. */
  lemma ChildForIgnoresCase(s: seq<Named<File>>, a: string, b: string)
    requires EqualIgnoringCase(a, b)
    ensures ChildFor(s, a) == ChildFor(s, b)
  {
    LoweredEqualIff(a, b);
  }

  /** After appending an entry under a lowered name no entry had, every
      spelling of that name finds the appended child. */
  lemma ChildForAppended(s: seq<Named<File>>, name: string, c: File)
    requires Lowered(name) !in Names(s)
    ensures forall n :: EqualIgnoringCase(n, name) ==> ChildFor(s + [Named(Lowered(name), c)], n) == c
  {
    var t := s + [Named(Lowered(name), c)];
    forall n | EqualIgnoringCase(n, name) ensures ChildFor(t, n) == c {
      LoweredEqualIff(n, name);
      assert t[|s|].name == Lowered(n);
      forall j | 0 <= j < |s| ensures t[j].name != Lowered(n) {
        assert t[j] == s[j];
      }
    }
  }

  class IgnoreCaseDirectory {
    /** This directory as a file: what its children's parent pointers hold. */
    const dir: File
    const base: BaseDirectory
    /** The entries of the directory class it extends: lowered name and child. */
    var entries: seq<Named<File>>
    /** The names as first spelled, at the same index as in `entries`. */
    var origNames: seq<string>

    /** The two vectors stay aligned, and each entry's name is the lowering
        of the spelling kept beside it. */
    predicate Paired()
      reads this
    {
      && |entries| == |origNames|
      && forall i :: 0 <= i < |entries| ==> entries[i].name == Lowered(origNames[i])
    }

    /** `Paired`, and each entry has its own name, one the base directory
        holds. */
    predicate Valid()
      reads this, base
    {
      Paired() && DistinctNames(entries) && Names(entries) <= base.files.Keys
    }

    constructor (base: BaseDirectory)
      ensures Valid() && this.base == base && entries == [] && origNames == []
      ensures fresh(dir) && dir.kind == DirectoryKind && dir.identity && dir.parent == null
    {
      dir := new File(DirectoryKind, base.node.mode, true, []);
      this.base := base;
      entries := [];
      origNames := [];
    }

    method InsertChild(name: string, child: File)
      requires Paired()
      modifies this`entries, this`origNames
      ensures Paired()
      ensures old(Valid()) && Lowered(name) in base.files && Lowered(name) !in old(Names(entries)) ==> Valid()
      ensures entries == old(entries) + [Named(Lowered(name), child)]
      ensures origNames == old(origNames) + [name]
    {
      ghost var e0 := entries;
      entries := entries + [Named(Lowered(name), child)];
      origNames := origNames + [name];
      assert forall i :: 0 <= i < |e0| ==> entries[i] == e0[i];
      assert Names(entries) == Names(e0) + {Lowered(name)} by {
        forall x | x in Names(entries) ensures x in Names(e0) + {Lowered(name)} {
          var i :| 0 <= i < |entries| && entries[i].name == x;
          if i < |e0| {
            assert e0[i].name == x;
          }
        }
        assert entries[|e0|].name == Lowered(name);
      }
    }

    /** Index of the first entry called `name`, or -1. */
    method FindEntry(name: string) returns (pos: int)
      ensures pos == IndexOfName(entries, name)
    {
      pos := 0;
      while pos < |entries|
        invariant 0 <= pos <= |entries|
        invariant forall j :: 0 <= j < pos ==> entries[j].name != name
      {
        if entries[pos].name == name {
          return;
        }
        pos := pos + 1;
      }
      return -1;
    }

    method GetChild(name: string) returns (r: File?)
      ensures r == ChildFor(entries, name)
    {
      var pos := FindEntry(Lowered(name));
      r := if pos < 0 then null else entries[pos].child;
    }

    method InsertDataFile(name: string, mode: int) returns (r: File?)
      requires Valid()
      modifies this`entries, this`origNames, base`files
      ensures Valid()
      ensures r == null <==> base.node.parent == null || Lowered(name) in old(base.files)
      ensures r == null ==> entries == old(entries) && origNames == old(origNames) && base.files == old(base.files)
      ensures r != null ==> fresh(r) && r.kind == DataFileKind && r.parent == dir
      ensures r != null ==> && base.files == old(base.files)[Lowered(name) := r]
                            && entries == old(entries) + [Named(Lowered(name), r)]
                            && origNames == old(origNames) + [name]
      ensures r != null ==> forall n :: EqualIgnoringCase(n, name) ==> ChildFor(entries, n) == r
    {
      var name2 := Lowered(name);
      ghost var e0 := entries;
      r := base.InsertDataFile(name2, mode);
      if r != null {
        InsertChild(name, r);
        r.parent := dir;
        ChildForAppended(e0, name, r);
      }
    }

    /** The source forwards the target string as it came; the base's handle
        turns it into a path string, `target` here. */
    method InsertSymlink(name: string, target: PathString) returns (r: File?)
      requires Valid()
      modifies this`entries, this`origNames, base`files
      ensures Valid()
      ensures r == null <==> base.node.parent == null || Lowered(name) in old(base.files)
      ensures r == null ==> entries == old(entries) && origNames == old(origNames) && base.files == old(base.files)
      ensures r != null ==> fresh(r) && r.kind == SymlinkKind && r.target == target.InternalName() && r.parent == dir
      ensures r != null ==> && base.files == old(base.files)[Lowered(name) := r]
                            && entries == old(entries) + [Named(Lowered(name), r)]
                            && origNames == old(origNames) + [name]
      ensures r != null ==> forall n :: EqualIgnoringCase(n, name) ==> ChildFor(entries, n) == r
    {
      var name2 := Lowered(name);
      ghost var e0 := entries;
      r := base.InsertSymlink(name2, target);
      if r != null {
        InsertChild(name, r);
        r.parent := dir;
        ChildForAppended(e0, name, r);
      }
    }

    /** The source wraps the base's new directory without checking it, so the
        base must accept the name and, once given this directory's parent when
        it had none, be linked. The new base directory gets the base as its
        parent; the new ignore-case directory's own parent is left unset (the
        caller's handle sets it). */
    method InsertDirectory(name: string, mode: int) returns (r: IgnoreCaseDirectory)
      requires Valid()
      requires Lowered(name) !in base.files
      requires base.node.parent != null || dir.parent != null
      modifies this`entries, this`origNames, base`files, base.node`parent
      ensures Valid() && r.Valid()
      ensures fresh(r) && fresh(r.dir) && fresh(r.base) && r.entries == [] && r.origNames == []
      ensures r.dir.kind == DirectoryKind && r.dir.parent == null
      ensures r.base.files == map[] && r.base.node.parent == base.node
      ensures forall n :: EqualIgnoringCase(n, name) ==> ChildFor(entries, n) == r.dir
      ensures base.files == old(base.files)[Lowered(name) := r.base.node]
      ensures entries == old(entries) + [Named(Lowered(name), r.dir)]
      ensures origNames == old(origNames) + [name]
      ensures base.node.parent == if old(base.node.parent) == null then dir.parent else old(base.node.parent)
    {
      var name2 := Lowered(name);
      if base.node.parent == null {
        base.node.parent := dir.parent;
      }
      ghost var e0 := entries;
      var baseChild := base.InsertDirectory(name2, mode);
      r := new IgnoreCaseDirectory(baseChild);
      InsertChild(name, r.dir);
      ChildForAppended(e0, name, r.dir);
    }

    /** Removes `name` from the entries (and the spelling at the same index),
        then from the base, whose code is returned. The entries are updated
        even when the base refuses. */
    method RemoveChild(name: string, refusal: int) returns (err: int)
      requires Valid()
      modifies this`entries, this`origNames, base`files
      ensures Valid()
      ensures var pos := old(IndexOfName(entries, Lowered(name)));
              entries == RemoveAt(old(entries), pos) && origNames == RemoveAt(old(origNames), pos)
      ensures (entries, origNames) == old(Dropped(Lowered(name)))
      ensures Names(entries) == old(Names(entries)) - {Lowered(name)}
      ensures err == refusal
      ensures base.files == if refusal != 0 then old(base.files) else old(base.files) - {Lowered(name)}
    {
      var name2 := Lowered(name);
      var pos := FindEntry(name2);
      RemoveKeepsPairs(entries, origNames, pos);
      RemoveNamedKeeps(entries, name2);
      // With no entry (pos == -1) both vectors are left as they are.
      entries, origNames := RemoveAt(entries, pos), RemoveAt(origNames, pos);
      err := base.RemoveChild(name2, refusal);
    }

    /** The spelling recorded for the first entry holding `file`, or "". */
    function NameOf(file: File): (s: string)
      requires Paired()
      reads this
      ensures IndexOfChild(entries, file) < 0 ==> s == []
      ensures IndexOfChild(entries, file) >= 0 ==> s == origNames[IndexOfChild(entries, file)]
    {
      var i := IndexOfChild(entries, file);
      if i < 0 then [] else origNames[i]
    }

    method GetName(file: File) returns (s: string)
      requires Valid()
      ensures s == NameOf(file)
      ensures s != [] ==> exists i :: 0 <= i < |entries| && entries[i].child == file && Lowered(s) == entries[i].name
    {
      var i := 0;
      while i < |entries|
        invariant 0 <= i <= |entries|
        invariant forall j :: 0 <= j < i ==> entries[j].child != file
      {
        if entries[i].child == file {
          return origNames[i];
        }
        i := i + 1;
      }
      return [];
    }

    /** A base listing entry under the recorded spelling when its lowered
        name is one of this directory's entries. */
    function Renamed(e: DirEntry): (r: DirEntry)
      requires Paired()
      reads this
      ensures r.kind == e.kind && r.ino == e.ino
      ensures IsLowered(e.name) ==> Lowered(r.name) == e.name
    {
      var pos := IndexOfName(entries, Lowered(e.name));
      LoweredFixesLowered(e.name);
      if pos >= 0 then e.(name := origNames[pos]) else e
    }

    method GetEntries(refusal: int) returns (r: MaybeEntries, ghost xs: seq<DirEntry>)
      requires Valid()
      ensures refusal != 0 ==> r == ListError(refusal)
      ensures refusal == 0 ==> r.Listed? && Lists(xs, base.files) && |r.entries| == |xs|
      ensures refusal == 0 ==> forall i :: 0 <= i < |xs| ==> r.entries[i] == Renamed(xs[i])
    {
      r := base.GetEntries(refusal);
      if r.ListError? {
        return r, [];
      }
      xs := r.entries;
      var l := r.entries;
      var i := 0;
      while i != |l|
        invariant 0 <= i <= |l| == |xs|
        invariant forall j :: 0 <= j < i ==> l[j] == Renamed(xs[j])
        invariant forall j :: i <= j < |l| ==> l[j] == xs[j]
      {
        assert l[i] == xs[i];
        var pos := FindEntry(Lowered(l[i].name));
        ghost var l0 := l;
        if pos >= 0 {
          l := l[i := l[i].(name := origNames[pos])];
        }
        assert l[i] == Renamed(xs[i]);
        assert forall j :: 0 <= j < |l| && j != i ==> l[j] == l0[j];
        i := i + 1;
      }
      r := Listed(l);
    }

    method GetNumEntries() returns (n: int)
      ensures n == |base.files.Keys|
    {
      n := |base.files.Keys|;
    }

    function MaintainsFileIdentity(): (r: bool)
      ensures r
    {
      true
    }

    /** The two vectors without the first entry called `key` and the
        spelling beside it; both unchanged when there is no such entry. */
    function Dropped(key: string): (seq<Named<File>>, seq<string>)
      reads this
    {
      var pos := IndexOfName(entries, key);
      (RemoveAt(entries, pos), RemoveAt(origNames, pos))
    }

    /** Renames `file`, currently a child of `oldParent`, to `name` here.
        The three refusals are the base's verdicts on removing the
        destination, on the move itself, and on removing the old name. */
    method InsertMove(name: string, file: File, oldParent: IgnoreCaseDirectory,
                      destRefusal: int, moveRefusal: int, oldRefusal: int) returns (err: int)
      requires Valid() && oldParent.Valid()
      requires file.parent == oldParent.dir
      requires oldParent != this ==> oldParent.base != base
      requires oldParent == this ==> name != []
      modifies this`entries, this`origNames, base`files, file`parent
      modifies oldParent`entries, oldParent`origNames, oldParent.base`files
      ensures Valid() && oldParent.Valid()
      ensures err == if destRefusal != 0 then destRefusal
                     else if moveRefusal != 0 then moveRefusal
                     else oldRefusal
      ensures err != 0 ==> file.parent == old(file.parent)
      ensures err == 0 ==> && file.parent == dir
                           && |entries| > 0 && entries[|entries| - 1] == Named(Lowered(name), file)
                           && origNames[|origNames| - 1] == name
      ensures err == 0 ==> forall n :: EqualIgnoringCase(n, name) ==> ChildFor(entries, n) == file
      ensures destRefusal != 0 || moveRefusal != 0 ==> (entries, origNames) == old(Dropped(Lowered(name)))
      ensures destRefusal != 0 ==>
                && base.files == old(base.files) && oldParent.base.files == old(oldParent.base.files)
                && (oldParent != this ==> oldParent.entries == old(oldParent.entries) && oldParent.origNames == old(oldParent.origNames))
      ensures destRefusal == 0 && moveRefusal != 0 ==>
                && base.files == old(base.files) - {Lowered(name)}
                && (oldParent != this ==>
                      && oldParent.base.files == old(oldParent.base.files)
                      && oldParent.entries == old(oldParent.entries) && oldParent.origNames == old(oldParent.origNames))
      ensures var oldKey := Lowered(old(oldParent.NameOf(file)));
              destRefusal == 0 && moveRefusal == 0 && oldParent != this ==>
                && base.files == old(base.files)[Lowered(name) := file]
                && (oldParent.entries, oldParent.origNames) == old(oldParent.Dropped(oldKey))
                && oldParent.base.files == (if oldRefusal != 0 then old(oldParent.base.files) else old(oldParent.base.files) - {oldKey})
                && entries == old(Dropped(Lowered(name))).0 + (if oldRefusal != 0 then [] else [Named(Lowered(name), file)])
                && origNames == old(Dropped(Lowered(name))).1 + (if oldRefusal != 0 then [] else [name])
    {
      ghost var oldName := oldParent.NameOf(file);
      ghost var b0 := base.files;
      err := RemoveChild(name, destRefusal);
      if err != 0 {
        return;
      }
      assert oldParent != this ==> oldParent.NameOf(file) == oldName;
      ReplaceAfterRemove(b0, Lowered(name), file);
      err := MoveFrom(name, file, oldParent, moveRefusal, oldRefusal);
    }

    /** The part of `InsertMove` after the destination name has been
        cleared: move in the base, drop the old name, record the new one. */
    method MoveFrom(name: string, file: File, oldParent: IgnoreCaseDirectory,
                    moveRefusal: int, oldRefusal: int) returns (err: int)
      requires Valid() && oldParent.Valid()
      requires oldParent != this ==> oldParent.base != base
      requires Lowered(name) !in Names(entries)
      requires oldParent == this ==> name != []
      modifies this`entries, this`origNames, base`files, file`parent
      modifies oldParent`entries, oldParent`origNames, oldParent.base`files
      ensures Valid() && oldParent.Valid()
      ensures err == if moveRefusal != 0 then moveRefusal else oldRefusal
      ensures err != 0 ==> file.parent == old(file.parent)
      ensures moveRefusal != 0 ==>
                && base.files == old(base.files) && oldParent.base.files == old(oldParent.base.files)
                && entries == old(entries) && origNames == old(origNames)
                && oldParent.entries == old(oldParent.entries) && oldParent.origNames == old(oldParent.origNames)
      ensures err == 0 ==> && file.parent == dir
                           && |entries| > 0 && entries[|entries| - 1] == Named(Lowered(name), file)
                           && origNames[|origNames| - 1] == name
      ensures err == 0 ==> forall n :: EqualIgnoringCase(n, name) ==> ChildFor(entries, n) == file
      ensures var oldKey := Lowered(old(oldParent.NameOf(file)));
              moveRefusal == 0 && oldParent != this ==>
                && base.files == old(base.files)[Lowered(name) := file]
                && (oldParent.entries, oldParent.origNames) == old(oldParent.Dropped(oldKey))
                && oldParent.base.files == (if oldRefusal != 0 then old(oldParent.base.files) else old(oldParent.base.files) - {oldKey})
                && entries == old(entries) + (if oldRefusal != 0 then [] else [Named(Lowered(name), file)])
                && origNames == old(origNames) + (if oldRefusal != 0 then [] else [name])
      ensures var oldKey := Lowered(old(oldParent.NameOf(file)));
              moveRefusal == 0 && oldParent == this ==>
                && base.files == (if oldRefusal != 0 then old(base.files)[Lowered(name) := file]
                                  else old(base.files)[Lowered(name) := file] - {oldKey})
                && entries == old(Dropped(oldKey)).0 + (if oldRefusal != 0 then [] else [Named(Lowered(name), file)])
                && origNames == old(Dropped(oldKey)).1 + (if oldRefusal != 0 then [] else [name])
    {
      var oldName := oldParent.GetName(file);
      var oldName2 := Lowered(oldName);
      LoweredIdempotent(oldName);
      // Within one directory the old key names an entry, or is empty while
      // the new key is not: the two keys differ.
      assert oldParent == this ==> oldName2 != Lowered(name);
      err := base.InsertMove(Lowered(name), file, moveRefusal);
      if err != 0 {
        return;
      }
      err := Relink(name, file, oldParent, oldName2, oldRefusal);
    }

    /** The tail of `InsertMove` once the base holds the file under the new
        key: drop the old key from the old parent, whose code is returned,
        then record the new name here and adopt the file. */
    method Relink(name: string, file: File, oldParent: IgnoreCaseDirectory, oldKey: string,
                  oldRefusal: int) returns (err: int)
      requires Valid() && oldParent.Valid()
      requires oldParent != this ==> oldParent.base != base
      requires Lowered(oldKey) == oldKey
      requires Lowered(name) in base.files && Lowered(name) !in Names(entries)
      requires oldParent == this ==> oldKey != Lowered(name)
      modifies this`entries, this`origNames, file`parent
      modifies oldParent`entries, oldParent`origNames, oldParent.base`files
      ensures Valid() && oldParent.Valid()
      ensures err == oldRefusal
      ensures err != 0 ==> file.parent == old(file.parent)
      ensures err == 0 ==> && file.parent == dir
                           && |entries| > 0 && entries[|entries| - 1] == Named(Lowered(name), file)
                           && origNames[|origNames| - 1] == name
      ensures err == 0 ==> forall n :: EqualIgnoringCase(n, name) ==> ChildFor(entries, n) == file
      ensures oldParent.base.files == if oldRefusal != 0 then old(oldParent.base.files) else old(oldParent.base.files) - {oldKey}
      ensures oldParent != this ==>
                && base.files == old(base.files)
                && (oldParent.entries, oldParent.origNames) == old(oldParent.Dropped(oldKey))
                && entries == old(entries) + (if oldRefusal != 0 then [] else [Named(Lowered(name), file)])
                && origNames == old(origNames) + (if oldRefusal != 0 then [] else [name])
      ensures oldParent == this ==>
                && entries == old(Dropped(oldKey)).0 + (if oldRefusal != 0 then [] else [Named(Lowered(name), file)])
                && origNames == old(Dropped(oldKey)).1 + (if oldRefusal != 0 then [] else [name])
    {
      err := oldParent.RemoveChild(oldKey, oldRefusal);
      if err != 0 {
        return;
      }
      assert Valid() && Lowered(name) in base.files && Lowered(name) !in Names(entries);
      ghost var e1 := entries;
      InsertChild(name, file);
      file.parent := dir;
      ChildForAppended(e1, name, file);
    }
  }

  /** The ignore-case backend's symlink factory: the inner backend receives
      the lowered target. */
  method CreateSymlink(target: string) returns (f: File)
    ensures fresh(f) && f.kind == SymlinkKind && f.target == Lowered(target) && f.parent == null
  {
    f := new File(SymlinkKind, 0, false, Lowered(target));
  }

  /** A file created in a directory made through the ignore-case layer is
      found under another spelling: make "Subdir" in a linked directory,
      create "Test.txt" in it, and look up "TEST.TXT". */
  method FileInNewSubdirectory() returns (created: File?, found: File?)
    ensures created != null && found == created
  {
    var root := new File(DirectoryKind, 0, false, []);
    var baseNode := new File(DirectoryKind, 0, false, []);
    var base := new BaseDirectory(baseNode);
    var top := new IgnoreCaseDirectory(base);
    top.dir.parent := root;
    var sub := top.InsertDirectory("Subdir", 0);
    created := sub.InsertDataFile("Test.txt", 0);
    SpellingsOfTestTxt();
    found := sub.GetChild("TEST.TXT");
  }

  /** "TEST.TXT" and "Test.txt" differ only in case. */
  lemma SpellingsOfTestTxt()
    ensures EqualIgnoringCase("TEST.TXT", "Test.txt")
  {
    var a, b := "TEST.TXT", "Test.txt";
    forall i | 0 <= i < |a| ensures SameLetterIgnoringCase(a[i], b[i]) {
      assert a[i] == b[i] || (IsUpper(a[i]) && b[i] as int == a[i] as int + 32);
    }
  }

  /** Re-inserting a removed key gives the same map as overwriting it. */
  lemma ReplaceAfterRemove<K, V>(m: map<K, V>, k: K, v: V)
    ensures (m - {k})[k := v] == m[k := v]
  {
  }

  /** Removing the same index from both vectors keeps them paired. */
  lemma RemoveKeepsPairs(entries: seq<Named<File>>, origNames: seq<string>, pos: int)
    requires |entries| == |origNames|
    requires forall i :: 0 <= i < |entries| ==> entries[i].name == Lowered(origNames[i])
    ensures |RemoveAt(entries, pos)| == |RemoveAt(origNames, pos)|
    ensures forall i :: 0 <= i < |RemoveAt(entries, pos)| ==>
              RemoveAt(entries, pos)[i].name == Lowered(RemoveAt(origNames, pos)[i])
  {
    var e, o := RemoveAt(entries, pos), RemoveAt(origNames, pos);
    forall i | 0 <= i < |e| ensures e[i].name == Lowered(o[i]) {
      if 0 <= pos < |entries| && i >= pos {
        assert e[i] == entries[i + 1] && o[i] == origNames[i + 1];
      } else {
        assert e[i] == entries[i] && o[i] == origNames[i];
      }
    }
  }

  /** Removing the first entry called `key` from entries with distinct names
      leaves distinct names, all but `key`. */
  lemma RemoveNamedKeeps(s: seq<Named<File>>, key: string)
    requires DistinctNames(s)
    ensures DistinctNames(RemoveAt(s, IndexOfName(s, key)))
    ensures Names(RemoveAt(s, IndexOfName(s, key))) == Names(s) - {key}
  {
    var pos := IndexOfName(s, key);
    if pos >= 0 {
      RemoveAtDistinct(s, pos);
      RemoveAtNames(s, pos);
    } else {
      assert key !in Names(s);
    }
  }

  /** Distinct lowered base names are reported under distinct names, so a
      file created as "Test.txt" is listed once, under that spelling. */
  lemma RenamedDistinct(d: IgnoreCaseDirectory, a: DirEntry, b: DirEntry)
    requires d.Paired()
    requires IsLowered(a.name) && IsLowered(b.name) && a.name != b.name
    ensures d.Renamed(a).name != d.Renamed(b).name
  {
    assert Lowered(d.Renamed(a).name) == a.name;
    assert Lowered(d.Renamed(b).name) == b.name;
  }
}

=== FILE: path_key.dfy ===
/** Path components and their case-folded comparison form (path_string.h),
    plus the ASCII lower-casing shared with the ignore-case backend. */
module PathKeys {

  /** ASCII upper-case letter, the only characters `tolower` changes here. */
  predicate IsUpper(c: char) {
    'A' <= c <= 'Z'
  }

  /** `std::tolower` restricted to the ASCII letters A-Z. */
  function ToLower(c: char): (r: char)
    ensures !IsUpper(r)
    ensures IsUpper(c) ==> r as int == c as int + 32
    ensures !IsUpper(c) ==> r == c
  {
    if IsUpper(c) then (c as int + 32) as char else c
  }

  /** Two characters are the same letter up to case. */
  predicate SameLetterIgnoringCase(a: char, b: char) {
    a == b || (IsUpper(a) && b as int == a as int + 32) || (IsUpper(b) && a as int == b as int + 32)
  }

  /** Two names that differ only in the case of ASCII letters. */
  predicate EqualIgnoringCase(a: string, b: string) {
    |a| == |b| && forall i :: 0 <= i < |a| ==> SameLetterIgnoringCase(a[i], b[i])
  }

  /** The per-character lower-casing loop of the PathString constructor and of
      the ignore-case backend's `normalize`. */
  function Lowered(s: string): (r: string)
    ensures |r| == |s|
    ensures forall i :: 0 <= i < |s| ==> r[i] == ToLower(s[i])
  {
    if s == [] then [] else [ToLower(s[0])] + Lowered(s[1..])
  }

  /** A name with no ASCII upper-case letter. */
  predicate IsLowered(s: string) {
    forall i :: 0 <= i < |s| ==> !IsUpper(s[i])
  }

  /** Lowering is idempotent: a lowered name is its own lowering. */
  lemma LoweredIdempotent(s: string)
    ensures Lowered(Lowered(s)) == Lowered(s)
  {
    LoweredFixesLowered(Lowered(s));
  }

  /** Exactly the names without upper-case letters are left unchanged. */
  lemma LoweredFixesLowered(s: string)
    ensures Lowered(s) == s <==> IsLowered(s)
  {
    if IsLowered(s) {
      assert forall i :: 0 <= i < |s| ==> Lowered(s)[i] == s[i];
    }
    if Lowered(s) == s {
      forall i | 0 <= i < |s| ensures !IsUpper(s[i]) {
        assert s[i] == Lowered(s)[i] == ToLower(s[i]);
      }
    }
  }

  lemma ToLowerAgree(a: char, b: char)
    ensures ToLower(a) == ToLower(b) <==> SameLetterIgnoringCase(a, b)
  {
  }

  /** Two names lower to the same name exactly when they differ only in letter case. */
  lemma LoweredEqualIff(a: string, b: string)
    ensures Lowered(a) == Lowered(b) <==> EqualIgnoringCase(a, b)
  {
    if Lowered(a) == Lowered(b) {
      forall i | 0 <= i < |a| ensures SameLetterIgnoringCase(a[i], b[i]) {
        assert Lowered(a)[i] == Lowered(b)[i];
        ToLowerAgree(a[i], b[i]);
      }
    }
    if EqualIgnoringCase(a, b) {
      forall i | 0 <= i < |a| ensures Lowered(a)[i] == Lowered(b)[i] {
        ToLowerAgree(a[i], b[i]);
      }
    }
  }

  /** A path component: the name as given and, in case-insensitive builds,
      its lowered comparison form, which the source computes once in the
      constructor and which here is a function of the name. */
  datatype PathString = PathString(caseInsensitive: bool, path: string)
  {
    /** The name in its original letter case. */
    function PublicName(): string {
      path
    }

    /** The name used for searching and for passing to backends. */
    function InternalName(): string {
      if caseInsensitive then Lowered(path) else path
    }
  }

  /** The default constructor: both forms empty. */
  function EmptyPath(caseInsensitive: bool): (p: PathString)
    ensures p.PublicName() == [] && p.InternalName() == []
  {
    PathString(caseInsensitive, [])
  }

  /** The constructor from a string; `caseInsensitive` stands for the
      WASMFS_CASE_INSENSITIVE build flag. */
  function MakePath(caseInsensitive: bool, p: string): (r: PathString)
    ensures r.PublicName() == p
    ensures caseInsensitive ==> |r.InternalName()| == |p|
    ensures caseInsensitive ==> forall i :: 0 <= i < |p| ==> r.InternalName()[i] == ToLower(p[i])
    ensures !caseInsensitive ==> r.InternalName() == p
  {
    PathString(caseInsensitive, p)
  }

  /** In case-insensitive builds, names differing only in letter case give the
      same internal name, and only those do. */
  lemma InternalNameIgnoresCase(a: string, b: string)
    ensures MakePath(true, a).InternalName() == MakePath(true, b).InternalName() <==> EqualIgnoringCase(a, b)
  {
    LoweredEqualIff(a, b);
  }

  /** Re-wrapping an internal name keeps it: the lowered form is already lowered. */
  lemma InternalNameStable(caseInsensitive: bool, p: string)
    ensures MakePath(caseInsensitive, MakePath(caseInsensitive, p).InternalName()).InternalName()
         == MakePath(caseInsensitive, p).InternalName()
  {
    if caseInsensitive {
      LoweredIdempotent(p);
    }
  }
}
